=== FILE: README.md ===
# Belgian payroll engine, 2025 parameters, in Dafny

This project models the calculation engine of a Belgian salary calculator for
salaried employees ("bedienden"). It covers five pieces:

- personal income tax on a progressive bracket table
- the social and fiscal werkbonus (a low-wage bonus in two parts, A and B)
- the special social-security contribution (BBSZ) for three household regimes
- the structural reduction of employer contributions (category 1)
- the two calculators built on them: net pay (`bereken_nettoloon`) and
  employer cost (`bereken_loonkost`), both over an employee profile
  (`Bediende`)

Amounts are exact `real`s. Rounding to cents is one function,
`Afronding.Round2`: round half up. The engine's `round(x + 1e-9, 2)` is meant
to do exactly that.

Modules follow the source files:

| module | file |
|---|---|
| `Afronding` | rounding and clamps |
| `Belasting` | `parameters/belasting_2025.py` |
| `Werkbonus` | `parameters/werkbonus_2025.py` |
| `Bszb` | `parameters/bszb_2025.py` |
| `StructureleVermindering` | `parameters/structurele_vermindering_2025.py` |
| `Werknemer` | `payroll/werknemer.py` |
| `Nettoloon` | `payroll/nettoloon.py` |
| `Loonkost` | `payroll/loonkost.py` |

The tax is modelled twice:

- a generic walk over any well-formed bracket table, with its own lemmas on bounds, monotonicity and the in-bracket formula
- the 2025 schedule written out bracket by bracket

`Belasting.WalkIsPerSchijf` proves the two agree.

Three behaviours of the engine are reproduced as written:

- The werkbonus is computed from the monthly wage and is a monthly amount. It is subtracted unscaled from the yearly employee contribution. The fiscal bonus is likewise subtracted unscaled from the yearly tax.
- The tax after the fiscal bonus is not floored at 0. `Nettoloon.NegatieveBelasting` shows a wage of 1000 a month, whose tax is -120.53.
- The employer-cost calculator accepts a net-pay result and never reads it.

The engine validates nothing:

- The tax walk accepts any income, and yields 0 for one that is not positive.
- The `Bediende` constructor stores its arguments unchanged.

So the calculators here are total. Validity is the separate predicate `Werknemer.Geldig`. Only the lemmas that need it take it as a hypothesis, e.g. `Loonkost.LoonkostGeldig`.

## Model

| member | source | states |
|---|---|---|
| Afronding.Round2 | payroll/nettoloon.py:7 | rounding to cents moves an amount by more than -1/200 and at most +1/200 (half up) |
| Afronding.Round2InCenten | payroll/nettoloon.py:7 | a rounded amount is always a whole number of cents |
| Afronding.Round2Uniek | payroll/nettoloon.py:7 | the only whole number of cents in (x - 1/200, x + 1/200] is Round2(x), so with the bound and Round2InCenten Round2 is exactly half-up rounding to cents |
| Afronding.Round2Monotoon | payroll/nettoloon.py:7 | rounding to cents preserves the order of two amounts |
| Afronding.Round2Idempotent | payroll/nettoloon.py:7 | rounding an already rounded amount changes nothing |
| Afronding.Round2Teken | payroll/nettoloon.py:7 | rounding keeps the sign of an amount and maps 0 to 0 |
| Belasting.Deel | parameters/belasting_2025.py:13-15 | a bracket adds nothing when the income capped at its bound does not exceed the lower bound, and never a negative amount at a non-negative rate |
| Belasting.WalkLaatsteStap | parameters/belasting_2025.py:13-17 | when the income stays within the first bound the walk stops there, taxing the income above the lower bound at that rate |
| Belasting.WalkVolleStap | parameters/belasting_2025.py:13-18 | an income above the first finite bound pays that whole bracket and walks on from its bound |
| Belasting.Walk | parameters/belasting_2025.py:9-18 | the bracket walk over a table with non-negative rates never yields a negative tax |
| Belasting.SchijfVan | parameters/belasting_2025.py:12-17 | the walk stops inside the table: an income above the lowest bound lies in one bracket (lower, bound], because the last bound is open |
| Belasting.WalkInSchijf | parameters/belasting_2025.py:12-18 | within bracket i the tax is the full tax of all lower brackets plus the income above bracket i's lower bound at bracket i's rate |
| Belasting.WalkMonotoon | parameters/belasting_2025.py:12-18 | for any increasing table with non-negative rates, more income never means less tax |
| Belasting.WalkHoogstens | parameters/belasting_2025.py:12-18 | the tax never exceeds the highest rate times the income above the starting bound |
| Belasting.TabelGeldig | parameters/belasting_2025.py:2-8 | the 2025 table has strictly increasing bounds from 0, only the last open, and rates in [0, 0.50] |
| Belasting.WalkIsPerSchijf | parameters/belasting_2025.py:2-18 | the walk over the 2025 table equals the bracket-by-bracket schedule 0 / 25% / 40% / 45% / 50% with breakpoints 10570, 15200, 26830, 46440 |
| Belasting.BerekenPersonenbelasting | parameters/belasting_2025.py:9-19 | the tax is the schedule rounded to cents; 0 up to 10570; never negative |
| Belasting.TopSchijf | parameters/belasting_2025.py:2-18 | above 46440 the unrounded tax is 14634 plus half the excess |
| Belasting.BelastingGrenzen | parameters/belasting_2025.py:2-18 | the unrounded tax lies between 0 and half the income, and is 0 for an income that is not positive |
| Belasting.PersonenbelastingMonotoon | parameters/belasting_2025.py:9-19 | the rounded tax is non-decreasing in taxable income |
| Werkbonus.Afbouw | parameters/werkbonus_2025.py:19-24 | full amount up to S_max; amount less slope times excess, floored at 0, up to S_afbouw_max; 0 above; always within [0, amount] |
| Werkbonus.AfbouwMonotoon | parameters/werkbonus_2025.py:19-24 | a part never grows when the reference wage rises |
| Werkbonus.AfbouwNulpunt | parameters/werkbonus_2025.py:19-24 | a part is 0 exactly from S_max + amount / slope on (both directions) when that point lies below S_afbouw_max |
| Werkbonus.LuikenNulVanafAfbouwMax | parameters/werkbonus_2025.py:2-24 | both 2025 parts are 0 at and above their S_afbouw_max, and exactly from their zero point on |
| Werkbonus.SocialeWerkbonus | parameters/werkbonus_2025.py:25-29 | each part lies within half a cent of its phase-out value `Werkbonus.Afbouw` for the wage, and in [0, its amount]; it is the full amount up to its S_max and 0 from its S_afbouw_max |
| Werkbonus.SocialeWerkbonusMonotoon | parameters/werkbonus_2025.py:25-29 | both social parts are non-increasing in the reference wage |
| Werkbonus.FiscaleWerkbonus | parameters/werkbonus_2025.py:15-32 | each fiscal part lies within half a cent of 33.14% of part A and 52.54% of part B; for a non-negative part it lies between 0 and that part rounded |
| Werkbonus.FiscaalHoogstensSociaal | parameters/werkbonus_2025.py:25-32 | applied to the social bonus, each fiscal part lies between 0 and its social part |
| Werkbonus.FiscaleWerkbonusHoogstens | parameters/werkbonus_2025.py:4-32 | the fiscal parts never exceed 38.41 (A) and 82.12 (B) |
| Werkbonus.Werkbonus2000 | parameters/werkbonus_2025.py:34 | a reference wage of 2000 gives both full amounts, 115.91 and 156.30 |
| Bszb.Within | parameters/bszb_2025.py:46-47 | the clamp lies in [0, high - low], is x - low inside the interval, 0 below it and exactly high - low at or above `high` |
| Bszb.KwartaalMetInkomen | parameters/bszb_2025.py:55-60 | joint regime with partner income: 0 below K1, 15.45 from K1 up to K3, the zone-3 formula capped at 154.92 above K3 |
| Bszb.KwartaalZonderInkomen | parameters/bszb_2025.py:61-65 | joint regime without partner income: 0 below K2, 5.9% above G1 up to K3, the zone-3 formula capped at 182.82 above |
| Bszb.KwartaalIndividueel | parameters/bszb_2025.py:66-75 | individual regime: the formula of each of the six bands, 0 below K2, and a result in [0, 182.82] |
| Bszb.Kwartaalbijdrage | parameters/bszb_2025.py:49-75 | the quarterly contribution lies in [0, 182.82] for every regime and wage |
| Bszb.BerekenBszb | parameters/bszb_2025.py:49-80 | month is q/3 rounded; year is twelve ROUNDED months rounded; all three amounts are non-negative, and all are 0 below the regime's lowest band |
| Bszb.KwartaalbijdrageMonotoon | parameters/bszb_2025.py:53-75 | the quarterly contribution is non-decreasing in the wage, in every regime |
| Bszb.BszbJaarMonotoon | parameters/bszb_2025.py:49-80 | the yearly BBSZ is non-decreasing in the wage, in every regime |
| Bszb.BszbJaarNabijVierKwartalen | parameters/bszb_2025.py:77-78 | the yearly amount is within 6.5 cents of four quarterly contributions |
| StructureleVermindering.Comp | parameters/structurele_vermindering_2025.py:19-29 | a component is never negative: 0 for a non-positive value, the value rounded otherwise |
| StructureleVermindering.CompBinnen | parameters/structurele_vermindering_2025.py:19-29 | a component lies within half a cent of max(0, value) |
| StructureleVermindering.Component | parameters/structurele_vermindering_2025.py:48-49 | a component with a non-negative slope is 0 once the wage reaches its limit |
| StructureleVermindering.ComponentBinnen | parameters/structurele_vermindering_2025.py:48-49 | each component is within half a cent of its unrounded value `ComponentExact`, max(0, slope x (limit - wage)) |
| StructureleVermindering.RAfwijking | parameters/structurele_vermindering_2025.py:47-49 | F plus the two rounded components is within a cent of the unrounded R, `RExact` |
| StructureleVermindering.ComponentMonotoon | parameters/structurele_vermindering_2025.py:48-49 | a component never grows with the reference wage |
| StructureleVermindering.Referteloon | parameters/structurele_vermindering_2025.py:46 | full time the quarterly reference wage is three monthly wages; part time it lies between 0 and three monthly wages |
| StructureleVermindering.ReferteloonDeeltijd | parameters/structurele_vermindering_2025.py:46 | part time, the reference wage is the work fraction times the full-time reference wage: S = 3 x monthly wage x work fraction |
| StructureleVermindering.RVoorReferteloon | parameters/structurele_vermindering_2025.py:45-51 | with F >= 0, R is never negative, since each component is floored on its own |
| StructureleVermindering.RVoorReferteloonBinnen | parameters/structurele_vermindering_2025.py:45-51 | R lies within 1.5 cents of F + max(0, alpha x (S0 - S)) + max(0, gamma x (S2 - S)), the formula without rounding (`RExact`) |
| StructureleVermindering.RBovenGrenzen | parameters/structurele_vermindering_2025.py:45-51 | at or above both limits, R is F rounded |
| StructureleVermindering.BerekenR | parameters/structurele_vermindering_2025.py:32-51 | for category 1, R is never negative and is 0 once the reference wage reaches S0 = 11233.89 |
| StructureleVermindering.BerekenRBinnen | parameters/structurele_vermindering_2025.py:32-51 | for category 1, R lies within 1.5 cents of the unrounded formula at the reference wage 3 x monthly wage x work fraction |
| StructureleVermindering.RMonotoon | parameters/structurele_vermindering_2025.py:46-51 | R is non-increasing in the reference wage |
| StructureleVermindering.Beta | parameters/structurele_vermindering_2025.py:70-76 | beta is 1.18 below 0.55, 1.18 + (mu - 0.55) x 0.28 in [0.55, 0.9), so within [1.18, 1.278), and satisfies mu x beta = 1 from 0.9 on; positive for positive mu |
| StructureleVermindering.Maandbedrag | parameters/structurele_vermindering_2025.py:69-79 | the monthly amount is R/3 rounded from mu = 0.9 on and never negative for R, mu >= 0 |
| StructureleVermindering.MaandbedragBinnen | parameters/structurele_vermindering_2025.py:69-79 | for every R and mu the monthly amount lies within half a cent of R x mu x beta(mu) / 3 |
| StructureleVermindering.BerekenStructureleVerminderingMaand | parameters/structurele_vermindering_2025.py:55-79 | from a work fraction of 0.9 on it is a third of R rounded; it is never negative for a non-negative work fraction |
| StructureleVermindering.VerminderingMaandBinnen | parameters/structurele_vermindering_2025.py:55-79 | for category 1 and every wage and work fraction, the monthly reduction lies within half a cent of R x mu x beta(mu) / 3 |
| StructureleVermindering.Vermindering2000 | parameters/structurele_vermindering_2025.py:81 | category 1, wage 2000, full time: R = 1236.74 and the monthly reduction is 412.25 |
| Werknemer.Bediende.BrutoJaarloon | payroll/werknemer.py:19 | the yearly wage is twelve monthly wages: non-negative exactly when the monthly wage is, and above it for a positive wage |
| Werknemer.NieuweBediende | payroll/werknemer.py:4-35 | the profile stores the wage, its yearly wage is twelve times it, and the defaults are full time, individual regime and 0 elsewhere |
| Werknemer.NieuweBediendeGeldig | payroll/werknemer.py:4-35 | a default profile is valid exactly when the wage is non-negative |
| Nettoloon.Kostenforfait | payroll/nettoloon.py:18-19 | the flat-rate expenses are at most 5930 and at most 30% of gross less contribution, and equal one of the two |
| Nettoloon.KostenforfaitNietNegatief | payroll/nettoloon.py:11-19 | with a non-negative gross wage the flat-rate expenses are not negative |
| Nettoloon.Onafgerond | payroll/nettoloon.py:9-26 | the flat-rate expenses are `Nettoloon.Kostenforfait` of the gross yearly wage and the contribution; the unrounded amounts decompose gross pay; the social bonus lowers the yearly contribution and the fiscal bonus lowers the tax with no floor; koopkracht exceeds net pay by the benefits; months are twelfths of years |
| Nettoloon.Afgerond | payroll/nettoloon.py:27-35 | each of the thirteen reported amounts lies within half a cent of its unrounded amount |
| Nettoloon.AfgerondKosten | payroll/nettoloon.py:19-31 | the rounded flat-rate expenses stay within [0, 5930] |
| Nettoloon.MaandJaarAfronding | payroll/nettoloon.py:24-34 | twelve rounded monthly amounts are within 6.5 cents of the rounded yearly amount |
| Nettoloon.AfgerondBehoudt | payroll/nettoloon.py:27-35 | rounding every field keeps month/year within 6.5 cents and koopkracht - netto within a cent of the benefits |
| Nettoloon.BerekenNettoloon | payroll/nettoloon.py:8-35 | reported month/year amounts agree within 6.5 cents; koopkracht exceeds net pay by the benefits within a cent; BBSZ is passed through; expenses lie in [0, 5930] |
| Nettoloon.BerekenNettoloonAfgerond | payroll/nettoloon.py:8-35 | the reported amounts are exactly the unrounded calculation `Onafgerond` with each of the thirteen fields rounded to cents on its own (`Afgerond`) |
| Nettoloon.NettoloonUitBelasting | payroll/nettoloon.py:21-24 | yearly net pay is gross less contribution, BBSZ, voucher share and the rounded tax, plus the fiscal bonus |
| Nettoloon.NegatieveBelasting | payroll/nettoloon.py:21 | at a wage of 1000, taxable income 7492.667 is untaxed and the reported tax is -120.53 |
| Loonkost.GeplafonneerdeVermindering | payroll/loonkost.py:48-52 | the yearly reduction is the smaller of twelve monthly reductions and the employer contribution |
| Loonkost.TotaalJaar | payroll/loonkost.py:56-65 | total cost is the other costs plus the contribution left after the capped reduction: never below the other costs |
| Loonkost.BerekenLoonkost | payroll/loonkost.py:11-78 | the reported contribution is the full contribution less the capped reduction, rounded: non-negative and at most the full one rounded; the yearly total is the unrounded total rounded, at least the other costs; the month is the unrounded year / 12 rounded, within 6.5 cents of a twelfth of the year |
| Loonkost.LoonkostPosten | payroll/loonkost.py:38-74 | the insurances (percentages of the gross yearly wage), vouchers and twelve monthly allowances are reported each rounded to cents |
| Loonkost.LoonkostGeldig | payroll/loonkost.py:35-65 | for a valid profile the contribution and both insurances are not negative, the capped reduction lies in [0, contribution] and the total between the other costs and those plus the contribution |
| Loonkost.LoonkostNegeertNettoloon | payroll/loonkost.py:13 | the result does not depend on the net-pay result passed in |
| Loonkost.Loonkost3000 | payroll/loonkost.py:35-77 | wage 3000, full time, 5.91 x 220 meal vouchers, 25%: monthly reduction 122.25, contribution 7533.00, total 44833.20 a year and 3736.10 a month |

## Left out

- app.py: the web UI, charts, sensitivity sweep and PDF export are presentation and I/O.
- payroll/overzicht.py only formats and exports engine output. It is not part of this model.
- Floating point: amounts are exact reals. `float('inf')` is the open bracket bound `Oneindig`, and the `+ 1e-9` nudge is folded into the half-up `Round2`.
- Werkbonus.SocialeWerkbonus: the source rounds with a plain `round(x, 2)` on binary floats, which is not always half up. The model uses `Round2`, so a part that lies exactly on a half cent may differ by one cent.
- Werkbonus.FiscaleWerkbonus: the same `round(x, 2)` caveat as the social bonus.
- Module-level `print` calls (parameters/werkbonus_2025.py:34, parameters/structurele_vermindering_2025.py:81) have no model. Their values are proved as `Werkbonus.Werkbonus2000` and `StructureleVermindering.Vermindering2000`.
- Unknown regime or category (a `KeyError` in the source): the regime is a datatype, and the category functions require category 1, the only one defined.
- The werkbonus `categorie` argument has only one value, "bedienden", so it is not a parameter here.
- The high-wage component (delta, S1) is unused for category 1.
- `Bediende.__repr__` is debugging output.
- Profile validation: the source performs none. `Werknemer.Geldig` states validity, and the calculators do not require it.
- Nettoloon.BerekenNettoloon: the exact identities between fields (gross = taxable + contribution + expenses, and so on) do not survive rounding each field on its own, so the function's contract states only the relations that do: month/year, koopkracht, BBSZ and expense bounds. `Nettoloon.BerekenNettoloonAfgerond` ties every reported field to the unrounded calculation `Nettoloon.Onafgerond`: each lies within half a cent of it, by `Nettoloon.Afgerond`.

=== FILE: afronding.dfy ===
/**
 * Money arithmetic shared by every payroll formula: rounding to whole cents
 * and the min/max clamps the formulas are built from.
 *
 * All amounts are exact `real`s. The engine rounds with `round(x + 1e-9, 2)`,
 * whose intent is round-half-up to cents; that is `Round2` here.
 */
module Afronding {

  function Min(a: real, b: real): real {
    if a <= b then a else b
  }

  function Max(a: real, b: real): real {
    if a >= b then a else b
  }

  /** Round half up to two decimals: the nearest cent, ties going up. */
  function Round2(x: real): (r: real)
    ensures -1.0 / 200.0 < r - x <= 1.0 / 200.0
  {
    ((x * 100.0 + 0.5).Floor as real) / 100.0
  }

  /** Rounding to cents never reverses the order of two amounts. */
  lemma Round2Monotoon(x: real, y: real)
    requires x <= y
    ensures Round2(x) <= Round2(y)
  {
    var a := (x * 100.0 + 0.5).Floor;
    var b := (y * 100.0 + 0.5).Floor;
    assert (a as real) <= y * 100.0 + 0.5;
    assert a <= b;
  }

  /** An amount that already is a whole number of cents is left unchanged. */
  lemma Round2Centen(k: int)
    ensures Round2(k as real / 100.0) == k as real / 100.0
  {
    var x := k as real / 100.0;
    assert x * 100.0 + 0.5 == k as real + 0.5;
    assert (k as real + 0.5).Floor == k;
  }

  /** Rounding twice is rounding once. */
  lemma Round2Idempotent(x: real)
    ensures Round2(Round2(x)) == Round2(x)
  {
    var k := (x * 100.0 + 0.5).Floor;
    assert Round2(x) == k as real / 100.0;
    Round2Centen(k);
  }

  /** Rounding always lands on a whole number of cents. */
  lemma Round2InCenten(x: real)
    ensures (Round2(x) * 100.0).Floor as real == Round2(x) * 100.0
  {
    var k := (x * 100.0 + 0.5).Floor;
    assert Round2(x) * 100.0 == k as real;
  }

  /** Round2 is the only whole number of cents in (x - 1/200, x + 1/200]:
      with the bound and `Round2InCenten`, this pins half-up rounding. */
  lemma Round2Uniek(x: real, r: real)
    requires (r * 100.0).Floor as real == r * 100.0
    requires -1.0 / 200.0 < r - x <= 1.0 / 200.0
    ensures r == Round2(x)
  {
    var j := (r * 100.0).Floor;
    assert j as real == r * 100.0;
    assert x * 100.0 - 0.5 < j as real <= x * 100.0 + 0.5;
    assert j as real <= x * 100.0 + 0.5 < j as real + 1.0;
    assert (x * 100.0 + 0.5).Floor == j;
    assert r == j as real / 100.0;
  }

  /** `r` is within half a cent of `x`, as `x` rounded to cents is. */
  predicate BinnenHalveCent(x: real, r: real) {
    -1.0 / 200.0 < r - x <= 1.0 / 200.0
  }

  /** Rounding never changes the sign of an amount, and 0 stays 0. */
  lemma Round2Teken(x: real)
    ensures x >= 0.0 ==> Round2(x) >= 0.0
    ensures x <= 0.0 ==> Round2(x) <= 0.0
    ensures Round2(0.0) == 0.0
  {
    Round2Centen(0);
    if x >= 0.0 {
      Round2Monotoon(0.0, x);
    } else {
      Round2Monotoon(x, 0.0);
    }
  }

  /** Scaling by a non-negative factor keeps the order of two amounts. */
  lemma MulMonotoon(a: real, x: real, y: real)
    requires a >= 0.0 && x <= y
    ensures a * x <= a * y
  {
    assert a * y - a * x == a * (y - x);
  }
}

=== FILE: belasting.dfy ===
/**
 * Personal income tax ("personenbelasting") for tax year 2025: a walk over
 * a progressive bracket table. Each bracket taxes the slice of income
 * between the previous bound and its own bound at its marginal rate; the
 * walk stops at the first bound the income does not exceed. The last bound
 * is open-ended.
 */
module Belasting {
  import opened Afronding

  /** Upper bound of a bracket: a finite amount or open-ended. */
  datatype Grens = Eindig(waarde: real) | Oneindig

  /** One bracket: its upper bound and its marginal rate. */
  datatype Schijf = Schijf(grens: Grens, tarief: real)

  const BELASTING_SCHIJVEN: seq<Schijf> := [
    Schijf(Eindig(10570.0), 0.00),
    Schijf(Eindig(15200.0), 0.25),
    Schijf(Eindig(26830.0), 0.40),
    Schijf(Eindig(46440.0), 0.45),
    Schijf(Oneindig, 0.50)
  ]

  /** Does the income stay within this bound (income <= bound)? */
  predicate Binnen(inkomen: real, g: Grens) {
    match g
    case Oneindig => true
    case Eindig(w) => inkomen <= w
  }

  /** min(income, bound), with an open bound never binding. */
  function BegrensdInkomen(inkomen: real, g: Grens): real {
    match g
    case Oneindig => inkomen
    case Eindig(w) => Min(inkomen, w)
  }

  /**
   * The tax one bracket adds when the previous bound is `vorige`: the slice
   * of income between `vorige` and the bracket's bound at the bracket's rate.
   * A slice that is not positive adds nothing, so with a non-negative rate
   * the bracket never adds a negative tax.
   */
  function Deel(inkomen: real, vorige: real, s: Schijf): (r: real)
    ensures BegrensdInkomen(inkomen, s.grens) <= vorige ==> r == 0.0
    ensures s.tarief >= 0.0 ==> r >= 0.0
  {
    var deel := BegrensdInkomen(inkomen, s.grens) - vorige;
    MulMonotoon(Max(0.0, deel), 0.0, Max(0.0, s.tarief));
    if deel > 0.0 then deel * s.tarief else 0.0
  }

  predicate TarievenNietNegatief(schijven: seq<Schijf>) {
    forall i | 0 <= i < |schijven| :: schijven[i].tarief >= 0.0
  }

  predicate TarievenHoogstens(schijven: seq<Schijf>, m: real) {
    forall i | 0 <= i < |schijven| :: schijven[i].tarief <= m
  }

  /**
   * The bracket walk, unrounded: accumulate each bracket's slice and stop
   * at the first bound the income does not exceed; otherwise the bound
   * becomes the next bracket's lower bound. With non-negative rates the
   * accumulated tax is never negative.
   */
  function Walk(schijven: seq<Schijf>, inkomen: real, vorige: real): (r: real)
    ensures TarievenNietNegatief(schijven) ==> r >= 0.0
    decreases |schijven|
  {
    if |schijven| == 0 then 0.0
    else
      var hier := Deel(inkomen, vorige, schijven[0]);
      match schijven[0].grens
      case Oneindig => hier
      case Eindig(w) =>
        if inkomen <= w then hier
        else
          assert TarievenNietNegatief(schijven) ==> TarievenNietNegatief(schijven[1..]);
          hier + Walk(schijven[1..], inkomen, w)
  }

  /**
   * A well-formed table above lower bound `vorige`: non-empty, finite bounds
   * strictly increasing from above `vorige`, and exactly the last bound
   * open-ended.
   */
  predicate Oplopend(schijven: seq<Schijf>, vorige: real)
    decreases |schijven|
  {
    |schijven| > 0 &&
    match schijven[0].grens
    case Oneindig => |schijven| == 1
    case Eindig(w) => vorige < w && Oplopend(schijven[1..], w)
  }

  /** Lower bound of bracket i: the bound of bracket i - 1, or `vorige`. */
  function Ondergrens(schijven: seq<Schijf>, vorige: real, i: nat): real
    requires Oplopend(schijven, vorige) && i < |schijven|
    decreases i
  {
    if i == 0 then vorige
    else Ondergrens(schijven[1..], schijven[0].grens.waarde, i - 1)
  }

  /** Tax on all brackets below bracket i, each taxed in full. */
  function VolleSchijven(schijven: seq<Schijf>, vorige: real, i: nat): real
    requires Oplopend(schijven, vorige) && i < |schijven|
    decreases i
  {
    if i == 0 then 0.0
    else
      var w := schijven[0].grens.waarde;
      (w - vorige) * schijven[0].tarief + VolleSchijven(schijven[1..], w, i - 1)
  }

  /**
   * The walk terminates inside the table: an income above the lowest bound
   * lies in exactly the bracket (lower, bound] this index names, because the
   * last bound is open-ended.
   */
  function SchijfVan(schijven: seq<Schijf>, vorige: real, inkomen: real): (i: nat)
    requires Oplopend(schijven, vorige) && vorige < inkomen
    ensures i < |schijven|
    ensures Ondergrens(schijven, vorige, i) < inkomen
    ensures Binnen(inkomen, schijven[i].grens)
    decreases |schijven|
  {
    match schijven[0].grens
    case Oneindig => 0
    case Eindig(w) =>
      if inkomen <= w then 0
      else 1 + SchijfVan(schijven[1..], w, inkomen)
  }

  /**
   * Within bracket i, whose range is (lower, bound], the tax is the full tax
   * of every lower bracket plus the part of the income above `lower` at
   * bracket i's rate.
   */
  lemma {:induction false} WalkInSchijf(schijven: seq<Schijf>, vorige: real, i: nat, inkomen: real)
    requires Oplopend(schijven, vorige) && i < |schijven|
    requires Ondergrens(schijven, vorige, i) < inkomen
    requires Binnen(inkomen, schijven[i].grens)
    ensures Walk(schijven, inkomen, vorige)
         == VolleSchijven(schijven, vorige, i)
            + (inkomen - Ondergrens(schijven, vorige, i)) * schijven[i].tarief
    decreases i
  {
    if i == 0 {
      WalkLaatsteStap(schijven, vorige, inkomen);
    } else {
      var w := schijven[0].grens.waarde;
      OndergrensStijgt(schijven[1..], w, i - 1);
      WalkInSchijf(schijven[1..], w, i - 1, inkomen);
      WalkVolleStap(schijven, vorige, inkomen);
      assert schijven[i] == schijven[1..][i - 1];
    }
  }

  /** The walk stops in the first bracket when the income stays within its
      bound: the tax is the income above `vorige` at its rate. */
  lemma WalkLaatsteStap(schijven: seq<Schijf>, vorige: real, inkomen: real)
    requires |schijven| > 0 && vorige < inkomen && Binnen(inkomen, schijven[0].grens)
    ensures Walk(schijven, inkomen, vorige) == (inkomen - vorige) * schijven[0].tarief
  {
    assert BegrensdInkomen(inkomen, schijven[0].grens) == inkomen;
  }

  /** An income above the first finite bound w pays the full first bracket
      and walks on from w. */
  lemma WalkVolleStap(schijven: seq<Schijf>, vorige: real, inkomen: real)
    requires |schijven| > 0 && schijven[0].grens.Eindig?
    requires vorige < schijven[0].grens.waarde < inkomen
    ensures var w := schijven[0].grens.waarde;
            Walk(schijven, inkomen, vorige)
            == (w - vorige) * schijven[0].tarief + Walk(schijven[1..], inkomen, w)
  {
    assert BegrensdInkomen(inkomen, schijven[0].grens) == schijven[0].grens.waarde;
  }

  /** Every bracket's lower bound is at least the table's starting bound. */
  lemma {:induction false} OndergrensStijgt(schijven: seq<Schijf>, vorige: real, i: nat)
    requires Oplopend(schijven, vorige) && i < |schijven|
    ensures vorige <= Ondergrens(schijven, vorige, i)
    decreases i
  {
    if i > 0 {
      OndergrensStijgt(schijven[1..], schijven[0].grens.waarde, i - 1);
    }
  }

  /** More income never means less tax, for any well-formed table with
      non-negative rates. */
  lemma {:induction false} WalkMonotoon(schijven: seq<Schijf>, vorige: real, a: real, b: real)
    requires Oplopend(schijven, vorige) && TarievenNietNegatief(schijven)
    requires a <= b
    ensures Walk(schijven, a, vorige) <= Walk(schijven, b, vorige)
    decreases |schijven|
  {
    var s := schijven[0];
    DeelMonotoon(a, b, vorige, s);
    match s.grens
    case Oneindig =>
    case Eindig(w) =>
      assert TarievenNietNegatief(schijven[1..]) by {
        forall j | 0 <= j < |schijven[1..]| ensures schijven[1..][j].tarief >= 0.0 {
          assert schijven[1..][j] == schijven[j + 1];
        }
      }
      if b <= w {
      } else if a <= w {
        assert Walk(schijven, a, vorige) == Deel(a, vorige, s);
        assert Walk(schijven, b, vorige) == Deel(b, vorige, s) + Walk(schijven[1..], b, w);
      } else {
        WalkMonotoon(schijven[1..], w, a, b);
      }
  }

  lemma DeelMonotoon(a: real, b: real, vorige: real, s: Schijf)
    requires a <= b && s.tarief >= 0.0
    ensures Deel(a, vorige, s) <= Deel(b, vorige, s)
  {
    var da := BegrensdInkomen(a, s.grens) - vorige;
    var db := BegrensdInkomen(b, s.grens) - vorige;
    assert da <= db;
    if da > 0.0 {
      calc {
        Deel(a, vorige, s);
        == da * s.tarief;
        == s.tarief * da;
        <= { MulMonotoon(s.tarief, da, db); }
        s.tarief * db;
        == db * s.tarief;
        == Deel(b, vorige, s);
      }
    } else {
      assert Deel(a, vorige, s) == 0.0 <= Deel(b, vorige, s);
    }
  }

  /** The tax never exceeds the top rate applied to the whole income above
      the starting bound. */
  lemma {:induction false} WalkHoogstens(schijven: seq<Schijf>, vorige: real, inkomen: real, m: real)
    requires Oplopend(schijven, vorige) && TarievenNietNegatief(schijven)
    requires TarievenHoogstens(schijven, m)
    ensures Walk(schijven, inkomen, vorige) <= m * Max(0.0, inkomen - vorige)
    decreases |schijven|
  {
    var s := schijven[0];
    assert 0.0 <= s.tarief <= m;
    match s.grens
    case Oneindig =>
      DeelHoogstens(inkomen, vorige, s, m, inkomen);
    case Eindig(w) =>
      if inkomen <= w {
        DeelHoogstens(inkomen, vorige, s, m, inkomen);
      } else {
        assert TarievenNietNegatief(schijven[1..]) && TarievenHoogstens(schijven[1..], m) by {
          forall j | 0 <= j < |schijven[1..]|
            ensures 0.0 <= schijven[1..][j].tarief <= m
          {
            assert schijven[1..][j] == schijven[j + 1];
          }
        }
        DeelHoogstens(inkomen, vorige, s, m, w);
        WalkHoogstens(schijven[1..], w, inkomen, m);
        assert Walk(schijven, inkomen, vorige) == Deel(inkomen, vorige, s) + Walk(schijven[1..], inkomen, w);
        SomHoogstens(m, vorige, w, inkomen);
      }
  }

  /** One bracket's tax is at most m times the slice from `vorige` up to
      any amount `tot` the bracket's bound and the income both reach. */
  lemma DeelHoogstens(inkomen: real, vorige: real, s: Schijf, m: real, tot: real)
    requires 0.0 <= s.tarief <= m
    requires BegrensdInkomen(inkomen, s.grens) <= tot
    ensures Deel(inkomen, vorige, s) <= m * Max(0.0, tot - vorige)
  {
    var deel := BegrensdInkomen(inkomen, s.grens) - vorige;
    var ruimte := Max(0.0, tot - vorige);
    if deel > 0.0 {
      assert ruimte == tot - vorige;
      calc {
        Deel(inkomen, vorige, s);
        == deel * s.tarief;
        <= { MulMonotoon(deel, s.tarief, m); }
        deel * m;
        == m * deel;
        <= { MulMonotoon(m, deel, ruimte); }
        m * ruimte;
      }
    } else {
      MulMonotoon(m, 0.0, ruimte);
    }
  }

  lemma SomHoogstens(m: real, vorige: real, w: real, inkomen: real)
    requires vorige < w < inkomen
    ensures m * Max(0.0, w - vorige) + m * Max(0.0, inkomen - w) == m * Max(0.0, inkomen - vorige)
  {
    assert m * (w - vorige) + m * (inkomen - w) == m * (inkomen - vorige);
  }

  /** The 2025 schedule written out bracket by bracket: 0% to 10570, 25% to
      15200, 40% to 26830, 45% to 46440 and 50% above. */
  function BelastingPerSchijf(inkomen: real): real {
    if inkomen <= 10570.0 then 0.0
    else if inkomen <= 15200.0 then 0.25 * (inkomen - 10570.0)
    else if inkomen <= 26830.0 then 1157.5 + 0.40 * (inkomen - 15200.0)
    else if inkomen <= 46440.0 then 5809.5 + 0.45 * (inkomen - 26830.0)
    else 14634.0 + 0.50 * (inkomen - 46440.0)
  }

  /** The 2025 table is well formed: bounds strictly increase from 0, only
      the last is open-ended, and every rate lies in [0, 0.50]. */
  lemma TabelGeldig()
    ensures Oplopend(BELASTING_SCHIJVEN, 0.0)
    ensures TarievenNietNegatief(BELASTING_SCHIJVEN)
    ensures TarievenHoogstens(BELASTING_SCHIJVEN, 0.50)
  {
    var t := BELASTING_SCHIJVEN;
    assert Oplopend(t[4..], 46440.0);
    assert t[3..][1..] == t[4..];
    assert Oplopend(t[3..], 26830.0);
    assert t[2..][1..] == t[3..];
    assert Oplopend(t[2..], 15200.0);
    assert t[1..][1..] == t[2..];
    assert Oplopend(t[1..], 10570.0);
  }

  /** The bracket walk over the 2025 table equals the schedule written out
      bracket by bracket. */
  lemma WalkIsPerSchijf(inkomen: real)
    ensures Walk(BELASTING_SCHIJVEN, inkomen, 0.0) == BelastingPerSchijf(inkomen)
  {
    var t := BELASTING_SCHIJVEN;
    assert t[1..][1..] == t[2..];
    assert t[2..][1..] == t[3..];
    assert t[3..][1..] == t[4..];
    assert Walk(t[4..], inkomen, 46440.0) == Deel(inkomen, 46440.0, t[4]);
  }

  /**
   * bereken_personenbelasting: the bracket walk over the 2025 table,
   * rounded to cents. Income up to 10570, and any income that is not
   * positive, is taxed 0; the result is the bracket-by-bracket schedule
   * rounded, and never negative.
   */
  function BerekenPersonenbelasting(belastbaarInkomen: real): (r: real)
    ensures r == Round2(BelastingPerSchijf(belastbaarInkomen))
    ensures belastbaarInkomen <= 10570.0 ==> r == 0.0
    ensures r >= 0.0
  {
    WalkIsPerSchijf(belastbaarInkomen);
    Round2Centen(0);
    Round2Teken(BelastingPerSchijf(belastbaarInkomen));
    Round2(Walk(BELASTING_SCHIJVEN, belastbaarInkomen, 0.0))
  }

  /** Above the last finite bound the unrounded tax is 14634 plus half of
      the excess, for the table as walked. */
  lemma TopSchijf(inkomen: real)
    requires inkomen > 46440.0
    ensures Walk(BELASTING_SCHIJVEN, inkomen, 0.0) == 14634.0 + 0.50 * (inkomen - 46440.0)
  {
    WalkIsPerSchijf(inkomen);
  }

  /** The unrounded tax lies between 0 and half the income. */
  lemma BelastingGrenzen(inkomen: real)
    ensures 0.0 <= Walk(BELASTING_SCHIJVEN, inkomen, 0.0) <= 0.50 * Max(0.0, inkomen)
    ensures inkomen <= 0.0 ==> Walk(BELASTING_SCHIJVEN, inkomen, 0.0) == 0.0
  {
    TabelGeldig();
    WalkHoogstens(BELASTING_SCHIJVEN, 0.0, inkomen, 0.50);
  }

  /** The rounded tax is non-decreasing in the taxable income. */
  lemma PersonenbelastingMonotoon(a: real, b: real)
    requires a <= b
    ensures BerekenPersonenbelasting(a) <= BerekenPersonenbelasting(b)
  {
    TabelGeldig();
    WalkMonotoon(BELASTING_SCHIJVEN, 0.0, a, b);
    Round2Monotoon(Walk(BELASTING_SCHIJVEN, a, 0.0), Walk(BELASTING_SCHIJVEN, b, 0.0));
  }
}

=== FILE: bszb.dfy ===
/**
 * The special social-security contribution ("bijzondere bijdrage sociale
 * zekerheid", BBSZ). The quarterly wage K = 3 x monthly wage selects a band;
 * each regime has its own bands and formulas. The monthly amount is a third
 * of the quarterly one, the yearly amount twelve rounded monthly amounts.
 */
module Bszb {
  import opened Afronding

  /** Household regime that selects the formula. */
  datatype Regime = GemeenschappelijkMetInkomen | GemeenschappelijkZonderInkomen | Individueel

  // Monthly wage thresholds.
  const G1: real := 1945.38
  const G2: real := 2190.18
  const G3: real := 3737.00
  const G4: real := 4100.00
  const G5: real := 6038.82

  // Quarterly wage thresholds.
  const K1: real := 3285.29
  const K2: real := 5836.14
  const K3: real := 6570.54
  const K4: real := 11211.00
  const K5: real := 12300.00
  const K6: real := 18116.46

  /** Joint taxation, partner with own income. */
  const MET_ZONE1_Q: real := 15.45
  const MET_ZONE2_PCT: real := 0.0590
  const MET_MIN_Q: real := 15.45
  const MET_ZONE3_PCT: real := 0.0110
  const MET_MAX_Q: real := 154.92

  /** Joint taxation, partner without own income. */
  const ZONDER_ZONE2_PCT: real := 0.0590
  const ZONDER_ZONE3_PCT: real := 0.0110
  const ZONDER_MAX_Q: real := 182.82

  /** Individual taxation. */
  const IND_Z2_PCT: real := 0.0422
  const IND_Z3_Q: real := 30.99
  const IND_Z3_PCT: real := 0.0110
  const IND_Z4_Q: real := 82.05
  const IND_Z4_PCT: real := 0.0338
  const IND_Z5_Q: real := 118.83
  const IND_Z5_PCT: real := 0.0110
  const IND_Z6_Q: real := 182.82

  /** Base amount of the top zone of both joint regimes. */
  const ZONE3_BASIS: real := 43.32

  /** The three amounts the calculator reports. */
  datatype Bijdrage = Bijdrage(kwartaal: real, maand: real, jaar: real)

  /** _within: the part of x above `low`, capped at `high`, never negative. */
  function Within(x: real, low: real, high: real): (r: real)
    ensures 0.0 <= r <= Max(0.0, high - low)
    ensures low <= x <= high ==> r == x - low
    ensures x <= low ==> r == 0.0
    ensures low <= high <= x ==> r == high - low
  {
    Max(0.0, Min(x, high) - low)
  }

  /** Quarterly contribution, joint regime with partner income: 15.45 from
      K1 on, the zone-3 formula above K3 capped at 154.92. */
  function KwartaalMetInkomen(s: real): (q: real)
    ensures 3.0 * s < K1 ==> q == 0.0
    ensures K1 <= 3.0 * s <= K3 ==> q == MET_MIN_Q
    ensures 3.0 * s > K3 ==> q == Min(ZONE3_BASIS + Max(0.0, s - G2) * MET_ZONE3_PCT, MET_MAX_Q)
    ensures 0.0 <= q <= MET_MAX_Q
  {
    var k := s * 3.0;
    if K1 <= k < K2 then MET_ZONE1_Q
    else if K2 <= k <= K3 then
      var basis := Within(s, G1, G2);
      assert basis * MET_ZONE2_PCT <= (G2 - G1) * MET_ZONE2_PCT < MET_MIN_Q;
      Max(MET_MIN_Q, basis * MET_ZONE2_PCT)
    else if k > K3 then
      var excedent := Max(0.0, s - G2);
      Min(ZONE3_BASIS + excedent * MET_ZONE3_PCT, MET_MAX_Q)
    else 0.0
  }

  /** Quarterly contribution, joint regime without partner income: nothing
      below K2, 5.9% of the wage above G1 up to K3, then the zone-3 formula
      capped at 182.82. */
  function KwartaalZonderInkomen(s: real): (q: real)
    ensures 3.0 * s < K2 ==> q == 0.0
    ensures K2 <= 3.0 * s <= K3 ==> q == (s - G1) * ZONDER_ZONE2_PCT
    ensures 3.0 * s > K3 ==> q == Min(ZONE3_BASIS + Max(0.0, s - G2) * ZONDER_ZONE3_PCT, ZONDER_MAX_Q)
    ensures 0.0 <= q <= ZONDER_MAX_Q
  {
    var k := s * 3.0;
    if K2 <= k <= K3 then
      var basis := Within(s, G1, G2);
      basis * ZONDER_ZONE2_PCT
    else if k > K3 then
      var excedent := Max(0.0, s - G2);
      Min(ZONE3_BASIS + excedent * ZONDER_ZONE3_PCT, ZONDER_MAX_Q)
    else 0.0
  }

  /** Quarterly contribution, individual regime: five bands above K2, each a
      base amount plus a share of the wage above the band's lower monthly
      threshold, and the fixed 182.82 above K6. */
  function KwartaalIndividueel(s: real): (q: real)
    ensures 3.0 * s < K2 ==> q == 0.0
    ensures K2 <= 3.0 * s <= K3 ==> q == (s - G1) * IND_Z2_PCT
    ensures K3 < 3.0 * s <= K4 ==> q == IND_Z3_Q + (s - G2) * IND_Z3_PCT
    ensures K4 < 3.0 * s <= K5 ==> q == IND_Z4_Q + (s - G3) * IND_Z4_PCT
    ensures K5 < 3.0 * s <= K6 ==> q == IND_Z5_Q + (s - G4) * IND_Z5_PCT
    ensures 3.0 * s > K6 ==> q == IND_Z6_Q
    ensures 0.0 <= q <= IND_Z6_Q
  {
    var k := s * 3.0;
    if K2 <= k <= K3 then
      var basis := Within(s, G1, G2);
      basis * IND_Z2_PCT
    else if K3 < k <= K4 then
      var basis := Within(s, G2, G3);
      IND_Z3_Q + basis * IND_Z3_PCT
    else if K4 < k <= K5 then
      var basis := Within(s, G3, G4);
      IND_Z4_Q + basis * IND_Z4_PCT
    else if K5 < k <= K6 then
      var basis := Within(s, G4, G5);
      IND_Z5_Q + basis * IND_Z5_PCT
    else if k > K6 then IND_Z6_Q
    else 0.0
  }

  /** The quarterly contribution q of the regime's branch, unrounded. It lies
      in [0, 182.82] for every wage and every regime. */
  function Kwartaalbijdrage(maandloon: real, regime: Regime): (q: real)
    ensures 0.0 <= q <= IND_Z6_Q
  {
    match regime
    case GemeenschappelijkMetInkomen => KwartaalMetInkomen(maandloon)
    case GemeenschappelijkZonderInkomen => KwartaalZonderInkomen(maandloon)
    case Individueel => KwartaalIndividueel(maandloon)
  }

  /** The wage below the regime's lowest band: K1 with partner income, K2
      otherwise. */
  function LaagsteBand(regime: Regime): real {
    if regime == GemeenschappelijkMetInkomen then K1 else K2
  }

  /**
   * bereken_bszb: the rounded quarterly amount; the monthly amount is a
   * third of q rounded; the yearly amount is twelve times the ROUNDED
   * monthly amount, rounded again. All three are never negative, and all
   * three are 0 when the quarterly wage is below the regime's lowest band.
   */
  function BerekenBszb(maandloon: real, regime: Regime): (r: Bijdrage)
    ensures var q := Kwartaalbijdrage(maandloon, regime);
            r.kwartaal == Round2(q) && r.maand == Round2(q / 3.0) && r.jaar == Round2(r.maand * 12.0)
    ensures 0.0 <= r.kwartaal && 0.0 <= r.maand && 0.0 <= r.jaar
    ensures 3.0 * maandloon < LaagsteBand(regime) ==> r == Bijdrage(0.0, 0.0, 0.0)
  {
    var q := Kwartaalbijdrage(maandloon, regime);
    var maand := Round2(q / 3.0);
    var jaar := Round2(maand * 12.0);
    Round2Teken(q);
    Round2Teken(q / 3.0);
    Round2Teken(maand * 12.0);
    Round2Centen(0);
    Bijdrage(Round2(q), maand, jaar)
  }

  /** The quarterly contribution is non-decreasing in the monthly wage, in
      every regime: each band starts at or above where the previous ends. */
  lemma KwartaalbijdrageMonotoon(regime: Regime, s: real, t: real)
    requires s <= t
    ensures Kwartaalbijdrage(s, regime) <= Kwartaalbijdrage(t, regime)
  {
    match regime
    case GemeenschappelijkMetInkomen =>
    case GemeenschappelijkZonderInkomen =>
    case Individueel =>
  }

  /** The yearly BBSZ is non-decreasing in the monthly wage, in every regime. */
  lemma BszbJaarMonotoon(regime: Regime, s: real, t: real)
    requires s <= t
    ensures BerekenBszb(s, regime).jaar <= BerekenBszb(t, regime).jaar
  {
    var qs := Kwartaalbijdrage(s, regime);
    var qt := Kwartaalbijdrage(t, regime);
    KwartaalbijdrageMonotoon(regime, s, t);
    Round2Monotoon(qs / 3.0, qt / 3.0);
    Round2Monotoon(Round2(qs / 3.0) * 12.0, Round2(qt / 3.0) * 12.0);
  }

  /** The yearly amount is within 6.5 cents of four quarterly contributions:
      it is built from the rounded monthly amount. */
  lemma BszbJaarNabijVierKwartalen(maandloon: real, regime: Regime)
    ensures var q := Kwartaalbijdrage(maandloon, regime);
            -0.065 <= BerekenBszb(maandloon, regime).jaar - 4.0 * q <= 0.065
  {
  }
}

=== FILE: loonkost.dfy ===
/**
 * The employer-cost calculator ("bereken_loonkost"): gross wage plus the
 * employer's social contribution, group and work-accident insurance,
 * vouchers and tax-free allowances, less the structural reduction. The
 * reduction is capped at the employer contribution it offsets.
 */
module Loonkost {
  import opened Afronding
  import opened Werknemer
  import Nettoloon
  import StructureleVermindering
  import Bszb

  /** The default employer contribution rate, 25%. */
  const RSZ_WG_PCT_STANDAARD: real := 0.25

  /** The eight amounts the calculator reports. The structural reduction is
      not among them. */
  datatype Loonkost = Loonkost(
    rszWerkgever: real,
    gvWerkgever: real,
    aoVerzekering: real,
    maaltijdchequesWg: real,
    ecocheques: real,
    kostenEigen: real,
    totaalLoonkostJaar: real,
    totaalLoonkostMaand: real)

  /** A percentage of the gross yearly wage. The employer contribution and
      both insurances are such shares. */
  function BrutoAandeel(b: Bediende, pct: real): real
  {
    b.BrutoJaarloon() * pct
  }

  /** The employer contribution before reduction: the share of the gross
      yearly wage at the employer rate. */
  function RszWerkgever(b: Bediende, rszWgPct: real): real {
    BrutoAandeel(b, rszWgPct)
  }

  /**
   * The yearly structural reduction, twelve monthly reductions, capped at the
   * employer contribution: it never exceeds either, and equals one of them.
   * For a non-negative work fraction and contribution it is not negative.
   */
  function GeplafonneerdeVermindering(b: Bediende, categorie: int, rszWgPct: real): (sv: real)
    requires categorie == 1
    ensures var maand := StructureleVermindering.BerekenStructureleVerminderingMaand(
                           categorie, b.brutoMaandloon, b.prestatiebreuk);
            && sv <= 12.0 * maand
            && sv <= RszWerkgever(b, rszWgPct)
            && (sv == 12.0 * maand || sv == RszWerkgever(b, rszWgPct))
    ensures b.prestatiebreuk >= 0.0 && RszWerkgever(b, rszWgPct) >= 0.0 ==> sv >= 0.0
  {
    var svMaand := StructureleVermindering.BerekenStructureleVerminderingMaand(
                     categorie, b.brutoMaandloon, b.prestatiebreuk);
    Min(svMaand * 12.0, RszWerkgever(b, rszWgPct))
  }

  /** What the employer pays besides its social contribution: gross wage,
      insurances, vouchers and twelve monthly allowances. */
  function OverigeKosten(b: Bediende): real {
    var brutoJaar := b.BrutoJaarloon();
    brutoJaar + BrutoAandeel(b, b.gvWgPct) + BrutoAandeel(b, b.aoPct)
    + b.mgWgJaar + b.ecJaar + b.maandelijkseKostenvergoeding * 12.0
  }

  /**
   * The total yearly employer cost before rounding. It is the other costs
   * plus the contribution left after the capped reduction, so it is never
   * below the other costs; with a non-negative reduction it is never above
   * the other costs plus the full contribution.
   */
  function TotaalJaar(b: Bediende, categorie: int, rszWgPct: real): (t: real)
    requires categorie == 1
    ensures t - OverigeKosten(b)
         == RszWerkgever(b, rszWgPct) - GeplafonneerdeVermindering(b, categorie, rszWgPct)
    ensures t >= OverigeKosten(b)
    ensures b.prestatiebreuk >= 0.0 && RszWerkgever(b, rszWgPct) >= 0.0
            ==> t <= OverigeKosten(b) + RszWerkgever(b, rszWgPct)
  {
    var brutoJaar := b.BrutoJaarloon();
    var rszWg := RszWerkgever(b, rszWgPct);
    var gvWg := BrutoAandeel(b, b.gvWgPct);
    var ao := BrutoAandeel(b, b.aoPct);
    var kostenEigen := b.maandelijkseKostenvergoeding * 12.0;
    var svJaar := GeplafonneerdeVermindering(b, categorie, rszWgPct);
    brutoJaar + rszWg + gvWg + ao + b.mgWgJaar + b.ecJaar + kostenEigen - svJaar
  }

  /**
   * bereken_loonkost. The net-pay result is accepted but never read. The
   * reported employer contribution is what is left after the capped
   * reduction, rounded: never negative, and never above the full
   * contribution for a non-negative work fraction. The monthly total is the
   * UNROUNDED yearly total divided by 12, then rounded, so twelve monthly
   * totals are within 6.5 cents of the yearly total.
   */
  function BerekenLoonkost(b: Bediende, nettoloonResultaat: Nettoloon.Nettoloon, categorie: int, rszWgPct: real): (r: Loonkost)
    requires categorie == 1
    ensures r.rszWerkgever == Round2(RszWerkgever(b, rszWgPct) - GeplafonneerdeVermindering(b, categorie, rszWgPct))
    ensures r.totaalLoonkostJaar == Round2(TotaalJaar(b, categorie, rszWgPct))
    ensures r.rszWerkgever >= 0.0
    ensures b.prestatiebreuk >= 0.0 && RszWerkgever(b, rszWgPct) >= 0.0
            ==> r.rszWerkgever <= Round2(RszWerkgever(b, rszWgPct))
    ensures r.totaalLoonkostJaar >= Round2(OverigeKosten(b))
    ensures r.totaalLoonkostMaand == Round2(TotaalJaar(b, categorie, rszWgPct) / 12.0)
    ensures -0.065 <= 12.0 * r.totaalLoonkostMaand - r.totaalLoonkostJaar <= 0.065
  {
    var rszWg := RszWerkgever(b, rszWgPct);
    var svJaar := GeplafonneerdeVermindering(b, categorie, rszWgPct);
    var totaal := TotaalJaar(b, categorie, rszWgPct);
    Round2Teken(rszWg - svJaar);
    Round2Monotoon(OverigeKosten(b), totaal);
    LoonkostAfronding(rszWg, svJaar, b.prestatiebreuk >= 0.0 && rszWg >= 0.0);
    Nettoloon.MaandJaarAfronding(totaal / 12.0, totaal);
    Loonkost(
      Round2(rszWg - svJaar),
      Round2(BrutoAandeel(b, b.gvWgPct)),
      Round2(BrutoAandeel(b, b.aoPct)),
      Round2(b.mgWgJaar),
      Round2(b.ecJaar),
      Round2(b.maandelijkseKostenvergoeding * 12.0),
      Round2(totaal),
      Round2(totaal / 12.0))
  }

  /** The other reported amounts are the insurances, vouchers and twelve
      monthly allowances, each rounded to cents on its own. */
  lemma LoonkostPosten(b: Bediende, n: Nettoloon.Nettoloon, categorie: int, rszWgPct: real)
    requires categorie == 1
    ensures var r := BerekenLoonkost(b, n, categorie, rszWgPct);
            && r.gvWerkgever == Round2(BrutoAandeel(b, b.gvWgPct))
            && r.aoVerzekering == Round2(BrutoAandeel(b, b.aoPct))
            && r.maaltijdchequesWg == Round2(b.mgWgJaar)
            && r.ecocheques == Round2(b.ecJaar)
            && r.kostenEigen == Round2(12.0 * b.maandelijkseKostenvergoeding)
  {
  }

  lemma LoonkostAfronding(rszWg: real, svJaar: real, nietNegatief: bool)
    requires nietNegatief ==> svJaar >= 0.0
    ensures nietNegatief ==> Round2(rszWg - svJaar) <= Round2(rszWg)
  {
    if nietNegatief {
      Round2Monotoon(rszWg - svJaar, rszWg);
    }
  }

  /**
   * For a valid profile and a non-negative rate the contribution and both
   * insurances are not negative, and the reduction never turns into a
   * charge: the capped reduction lies between 0 and the full contribution, the reported contribution between 0 and the full one
   * rounded, and the total cost between the other costs and the other costs
   * plus the full contribution.
   */
  lemma LoonkostGeldig(b: Bediende, n: Nettoloon.Nettoloon, categorie: int, rszWgPct: real)
    requires Geldig(b) && categorie == 1 && rszWgPct >= 0.0
    ensures RszWerkgever(b, rszWgPct) >= 0.0
    ensures BrutoAandeel(b, b.gvWgPct) >= 0.0 && BrutoAandeel(b, b.aoPct) >= 0.0
    ensures 0.0 <= GeplafonneerdeVermindering(b, categorie, rszWgPct) <= RszWerkgever(b, rszWgPct)
    ensures var r := BerekenLoonkost(b, n, categorie, rszWgPct);
            0.0 <= r.rszWerkgever <= Round2(RszWerkgever(b, rszWgPct))
    ensures OverigeKosten(b) <= TotaalJaar(b, categorie, rszWgPct)
                             <= OverigeKosten(b) + RszWerkgever(b, rszWgPct)
  {
    MulMonotoon(rszWgPct, 0.0, b.brutoMaandloon * 12.0);
    MulMonotoon(b.gvWgPct, 0.0, b.brutoMaandloon * 12.0);
    MulMonotoon(b.aoPct, 0.0, b.brutoMaandloon * 12.0);
    assert RszWerkgever(b, rszWgPct) >= 0.0;
  }

  /** The result is the same whatever net-pay result is passed in. */
  lemma LoonkostNegeertNettoloon(b: Bediende, n1: Nettoloon.Nettoloon, n2: Nettoloon.Nettoloon, categorie: int, rszWgPct: real)
    requires categorie == 1
    ensures BerekenLoonkost(b, n1, categorie, rszWgPct) == BerekenLoonkost(b, n2, categorie, rszWgPct)
  {
  }

  /**
   * A full-time employee earning 3000 a month with 5.91 of employer
   * meal-voucher share on 220 days, at the default 25% rate: the structural
   * reduction is 122.25 a month, 1467 a year, well under the 9000
   * contribution, and the total cost is 44833.20 a year, 3736.10 a month,
   * whatever net-pay result is passed in.
   */
  lemma Loonkost3000(n: Nettoloon.Nettoloon)
    ensures var b := Bediende(3000.0, 1.0, 5.91 * 220.0, 0.0, 0.0, 0.0, 0.0, 0.0, Bszb.Individueel);
            var r := BerekenLoonkost(b, n, 1, RSZ_WG_PCT_STANDAARD);
            && StructureleVermindering.BerekenStructureleVerminderingMaand(1, 3000.0, 1.0) == 122.25
            && r.rszWerkgever == 7533.00
            && r.totaalLoonkostJaar == 44833.20
            && r.totaalLoonkostMaand == 3736.10
  {
    var b := Bediende(3000.0, 1.0, 5.91 * 220.0, 0.0, 0.0, 0.0, 0.0, 0.0, Bszb.Individueel);
    assert StructureleVermindering.Component(0.14, 11233.89, 9000.0) == 312.74;
    assert StructureleVermindering.Component(0.15, 9360.0, 9000.0) == 54.00;
    assert StructureleVermindering.BerekenR(1, 3000.0, 1.0) == 366.74;
    assert StructureleVermindering.BerekenStructureleVerminderingMaand(1, 3000.0, 1.0) == 122.25;
    assert GeplafonneerdeVermindering(b, 1, RSZ_WG_PCT_STANDAARD) == 1467.0;
    assert TotaalJaar(b, 1, RSZ_WG_PCT_STANDAARD) == 44833.2;
  }
}

=== FILE: nettoloon.dfy ===
/**
 * The net-pay calculator ("bereken_nettoloon"): from a profile to the
 * employee's social contribution, taxable income, income tax, BBSZ, net pay
 * and purchasing power. Every intermediate amount stays unrounded; only the
 * thirteen reported amounts are rounded to cents.
 *
 * Two quirks of the engine are reproduced as they are: the werkbonus is a
 * MONTHLY amount (computed from the monthly wage) and is subtracted as such
 * from the YEARLY contribution, and likewise the monthly fiscal bonus from
 * the yearly tax; and the tax after the fiscal bonus is not floored at 0.
 */
module Nettoloon {
  import opened Afronding
  import opened Werknemer
  import Belasting
  import Werkbonus
  import Bszb

  const RSZ_WERKNEMER_PERCENT: real := 0.1307
  const KOSTENFORFAIT_PLAFOND: real := 5930.0
  const KOSTENFORFAIT_PCT: real := 0.30

  /** The thirteen amounts the calculator reports, per year or per month as
      their names say. */
  datatype Nettoloon = Nettoloon(
    brutoMaand: real,
    brutoJaar: real,
    rszWerknemer: real,
    socialeWerkbonus: real,
    fiscaleWerkbonus: real,
    kostenforfait: real,
    belastbaarInkomen: real,
    personenbelasting: real,
    bbsz: real,
    nettoloonMaand: real,
    nettoloonJaar: real,
    koopkrachtMaand: real,
    koopkrachtJaar: real)

  /** Flat-rate professional expenses: 30% of gross less contribution,
      capped at 5930. */
  function Kostenforfait(brutoJaar: real, rszWn: real): (r: real)
    ensures r <= KOSTENFORFAIT_PLAFOND
    ensures r <= KOSTENFORFAIT_PCT * (brutoJaar - rszWn)
    ensures r == KOSTENFORFAIT_PLAFOND || r == KOSTENFORFAIT_PCT * (brutoJaar - rszWn)
  {
    Min(KOSTENFORFAIT_PLAFOND, KOSTENFORFAIT_PCT * (brutoJaar - rszWn))
  }

  /**
   * The calculation before rounding. The amounts decompose the gross wage:
   * taxable income, employee contribution and expenses add up to it, and so
   * do net pay, contribution, tax, BBSZ and the employee's voucher share.
   * The social bonus lowers the contribution by exactly its monthly amount;
   * the fiscal bonus lowers the tax by exactly its amount, with no floor.
   * Purchasing power exceeds net pay by the vouchers and twelve monthly
   * allowances; monthly amounts are a twelfth of yearly ones.
   */
  function Onafgerond(b: Bediende): (n: Nettoloon)
    ensures n.brutoMaand == b.brutoMaandloon && n.brutoJaar == 12.0 * b.brutoMaandloon
    ensures var wb := Werkbonus.SocialeWerkbonus(b.brutoMaandloon);
            var fb := Werkbonus.FiscaleWerkbonus(wb.a, wb.b);
            n.socialeWerkbonus == wb.a + wb.b && n.fiscaleWerkbonus == fb.a + fb.b
    ensures 0.0 <= n.socialeWerkbonus <= Werkbonus.LUIK_A.bedrag + Werkbonus.LUIK_B.bedrag
    ensures n.rszWerknemer + n.socialeWerkbonus == RSZ_WERKNEMER_PERCENT * n.brutoJaar
    ensures n.kostenforfait == Kostenforfait(n.brutoJaar, n.rszWerknemer)
    ensures n.kostenforfait <= KOSTENFORFAIT_PLAFOND
    ensures b.brutoMaandloon >= 0.0 ==> 0.0 <= n.kostenforfait
    ensures n.belastbaarInkomen + n.rszWerknemer + n.kostenforfait == n.brutoJaar
    ensures n.personenbelasting + n.fiscaleWerkbonus
         == Belasting.BerekenPersonenbelasting(n.belastbaarInkomen)
    ensures 0.0 <= n.fiscaleWerkbonus <= 120.53
    ensures n.personenbelasting >= -120.53
    ensures n.bbsz == Bszb.BerekenBszb(b.brutoMaandloon, b.regime).jaar
    ensures n.nettoloonJaar + n.rszWerknemer + n.personenbelasting + n.bbsz + b.mgWnJaar
         == n.brutoJaar
    ensures n.koopkrachtJaar - n.nettoloonJaar
         == b.mgWgJaar + b.ecJaar + 12.0 * b.maandelijkseKostenvergoeding
    ensures 12.0 * n.nettoloonMaand == n.nettoloonJaar
    ensures 12.0 * n.koopkrachtMaand == n.koopkrachtJaar
  {
    var brutoJaar := b.BrutoJaarloon();
    var brutoMaand := b.brutoMaandloon;
    var rszBasis := brutoJaar * RSZ_WERKNEMER_PERCENT;
    var sociaal := Werkbonus.SocialeWerkbonus(brutoMaand);
    var socialeWb := sociaal.a + sociaal.b;
    var fiscaal := Werkbonus.FiscaleWerkbonus(sociaal.a, sociaal.b);
    var fiscaleWb := fiscaal.a + fiscaal.b;
    var rszWn := rszBasis - socialeWb;
    var kostenforfait := Kostenforfait(brutoJaar, rszWn);
    var belastbaar := brutoJaar - rszWn - kostenforfait;
    var personenbelasting := Belasting.BerekenPersonenbelasting(belastbaar) - fiscaleWb;
    var bbsz := Bszb.BerekenBszb(brutoMaand, b.regime).jaar;
    var nettoJaar := brutoJaar - rszWn - personenbelasting - bbsz - b.mgWnJaar;
    var koopkrachtJaar := nettoJaar + b.mgWgJaar + b.ecJaar + b.maandelijkseKostenvergoeding * 12.0;
    Werkbonus.FiscaleWerkbonusHoogstens(brutoMaand);
    KostenforfaitNietNegatief(brutoJaar, rszWn, socialeWb);
    Nettoloon(
      brutoMaand, brutoJaar, rszWn, socialeWb, fiscaleWb, kostenforfait, belastbaar,
      personenbelasting, bbsz, nettoJaar / 12.0, nettoJaar, koopkrachtJaar / 12.0, koopkrachtJaar)
  }

  /** With a non-negative gross wage and bonus, gross less contribution is
      not negative, so neither are the flat-rate expenses. */
  lemma KostenforfaitNietNegatief(brutoJaar: real, rszWn: real, socialeWb: real)
    requires rszWn == brutoJaar * RSZ_WERKNEMER_PERCENT - socialeWb
    requires socialeWb >= 0.0
    ensures brutoJaar >= 0.0 ==> 0.0 <= Kostenforfait(brutoJaar, rszWn)
  {
  }

  /** The thirteen amounts reported: each rounded to cents on its own, so
      each lies within half a cent of the unrounded amount. */
  function Afgerond(n: Nettoloon): (r: Nettoloon)
    ensures BinnenHalveCent(n.brutoMaand, r.brutoMaand)
    ensures BinnenHalveCent(n.brutoJaar, r.brutoJaar)
    ensures BinnenHalveCent(n.rszWerknemer, r.rszWerknemer)
    ensures BinnenHalveCent(n.socialeWerkbonus, r.socialeWerkbonus)
    ensures BinnenHalveCent(n.fiscaleWerkbonus, r.fiscaleWerkbonus)
    ensures BinnenHalveCent(n.kostenforfait, r.kostenforfait)
    ensures BinnenHalveCent(n.belastbaarInkomen, r.belastbaarInkomen)
    ensures BinnenHalveCent(n.personenbelasting, r.personenbelasting)
    ensures BinnenHalveCent(n.bbsz, r.bbsz)
    ensures BinnenHalveCent(n.nettoloonMaand, r.nettoloonMaand)
    ensures BinnenHalveCent(n.nettoloonJaar, r.nettoloonJaar)
    ensures BinnenHalveCent(n.koopkrachtMaand, r.koopkrachtMaand)
    ensures BinnenHalveCent(n.koopkrachtJaar, r.koopkrachtJaar)
  {
    Nettoloon(
      Round2(n.brutoMaand), Round2(n.brutoJaar), Round2(n.rszWerknemer),
      Round2(n.socialeWerkbonus), Round2(n.fiscaleWerkbonus), Round2(n.kostenforfait),
      Round2(n.belastbaarInkomen), Round2(n.personenbelasting), Round2(n.bbsz),
      Round2(n.nettoloonMaand), Round2(n.nettoloonJaar), Round2(n.koopkrachtMaand),
      Round2(n.koopkrachtJaar))
  }

  /** Twelve rounded monthly amounts are within 6.5 cents of the rounded
      yearly amount. */
  lemma MaandJaarAfronding(maand: real, jaar: real)
    requires 12.0 * maand == jaar
    ensures -0.065 <= 12.0 * Round2(maand) - Round2(jaar) <= 0.065
  {
  }

  /** What rounding every amount on its own keeps of the unrounded
      relations. */
  lemma AfgerondBehoudt(n: Nettoloon, voordelen: real)
    requires 12.0 * n.nettoloonMaand == n.nettoloonJaar
    requires 12.0 * n.koopkrachtMaand == n.koopkrachtJaar
    requires n.koopkrachtJaar - n.nettoloonJaar == voordelen
    ensures var r := Afgerond(n);
            && -0.065 <= 12.0 * r.nettoloonMaand - r.nettoloonJaar <= 0.065
            && -0.065 <= 12.0 * r.koopkrachtMaand - r.koopkrachtJaar <= 0.065
            && -0.01 <= (r.koopkrachtJaar - r.nettoloonJaar) - voordelen <= 0.01
  {
    MaandJaarAfronding(n.nettoloonMaand, n.nettoloonJaar);
    MaandJaarAfronding(n.koopkrachtMaand, n.koopkrachtJaar);
  }

  /**
   * bereken_nettoloon: the unrounded calculation, every amount rounded to
   * cents. Because each amount is rounded on its own, twelve rounded
   * monthly amounts differ from the rounded yearly amount by at most 6.5
   * cents, and purchasing power exceeds net pay by the benefits up to one
   * cent. The BBSZ, already in cents, is reported unchanged.
   */
  function BerekenNettoloon(b: Bediende): (r: Nettoloon)
    ensures -0.065 <= 12.0 * r.nettoloonMaand - r.nettoloonJaar <= 0.065
    ensures -0.065 <= 12.0 * r.koopkrachtMaand - r.koopkrachtJaar <= 0.065
    ensures -0.01 <= (r.koopkrachtJaar - r.nettoloonJaar)
                     - (b.mgWgJaar + b.ecJaar + 12.0 * b.maandelijkseKostenvergoeding) <= 0.01
    ensures r.bbsz == Bszb.BerekenBszb(b.brutoMaandloon, b.regime).jaar
    ensures r.kostenforfait <= KOSTENFORFAIT_PLAFOND
    ensures b.brutoMaandloon >= 0.0 ==> r.kostenforfait >= 0.0
  {
    var n := Onafgerond(b);
    AfgerondBehoudt(n, b.mgWgJaar + b.ecJaar + 12.0 * b.maandelijkseKostenvergoeding);
    AfgerondKosten(n, b.brutoMaandloon >= 0.0);
    Round2Idempotent(Bszb.BerekenBszb(b.brutoMaandloon, b.regime).maand * 12.0);
    Afgerond(n)
  }

  /** The reported amounts are exactly the unrounded calculation with each
      of the thirteen fields rounded to cents, and nothing else. */
  lemma BerekenNettoloonAfgerond(b: Bediende)
    ensures BerekenNettoloon(b) == Afgerond(Onafgerond(b))
  {
  }

  /** Rounding keeps the flat-rate expenses within [0, 5930]. */
  lemma AfgerondKosten(n: Nettoloon, nietNegatief: bool)
    requires n.kostenforfait <= KOSTENFORFAIT_PLAFOND
    requires nietNegatief ==> n.kostenforfait >= 0.0
    ensures Afgerond(n).kostenforfait <= KOSTENFORFAIT_PLAFOND
    ensures nietNegatief ==> Afgerond(n).kostenforfait >= 0.0
  {
    Round2Centen(593000);
    Round2Monotoon(n.kostenforfait, KOSTENFORFAIT_PLAFOND);
    Round2Teken(n.kostenforfait);
  }

  /** Net pay moves with the rounded tax: the unrounded yearly net pay is
      gross less contribution, BBSZ and voucher share, less the rounded tax,
      plus the fiscal bonus. */
  lemma NettoloonUitBelasting(b: Bediende)
    ensures var n := Onafgerond(b);
            n.nettoloonJaar
            == n.brutoJaar - n.rszWerknemer - n.bbsz - b.mgWnJaar
               - Belasting.BerekenPersonenbelasting(n.belastbaarInkomen) + n.fiscaleWerkbonus
  {
  }

  /**
   * The income tax after the fiscal bonus can be negative: at a monthly
   * wage of 1000 the taxable income 7492.667 is below the first bracket,
   * the fiscal bonus is 38.41 + 82.12, and the reported tax is -120.53.
   */
  lemma NegatieveBelasting()
    ensures Onafgerond(NieuweBediende(1000.0)).belastbaarInkomen == 7492.667
    ensures Onafgerond(NieuweBediende(1000.0)).personenbelasting == -120.53
    ensures BerekenNettoloon(NieuweBediende(1000.0)).personenbelasting == -120.53
  {
    var b := NieuweBediende(1000.0);
    var n := Onafgerond(b);
    var wb := Werkbonus.SocialeWerkbonus(1000.0);
    assert wb == Werkbonus.Luiken(115.91, 156.30);
    assert Werkbonus.FiscaleWerkbonus(wb.a, wb.b) == Werkbonus.Luiken(38.41, 82.12);
    assert n.rszWerknemer == 1296.19;
    assert n.kostenforfait == 3211.143 by {
      assert n.kostenforfait <= 0.30 * (12000.0 - 1296.19);
    }
    assert n.belastbaarInkomen == 7492.667;
    assert Belasting.BerekenPersonenbelasting(7492.667) == 0.0;
    assert n.personenbelasting == -120.53;
    Round2Centen(-12053);
  }
}

=== FILE: structurele_vermindering.dfy ===
/**
 * The structural reduction of employer contributions ("structurele
 * vermindering"), Q3 2025 parameters. Only category 1 (the general
 * category) is defined. A quarterly flat amount R falls with the quarterly
 * reference wage; the monthly reduction scales R by the work fraction and a
 * part-time factor beta.
 */
module StructureleVermindering {
  import opened Afronding

  /** The coefficients of one category: flat amount F, the slopes alpha (low
      wages) and gamma (very low wages) and their wage limits S0 and S2. The
      high-wage component (delta, S1) is unused in category 1. */
  datatype Categorie = Categorie(f: real, alpha: real, gamma: real, s0: real, s2: real)

  const CATEGORIE_1: Categorie := Categorie(0.0, 0.1400, 0.1500, 11233.89, 9360.00)

  /** _comp: a component rounded to cents, a negative result counting as 0. */
  function Comp(v: real): (r: real)
    ensures r >= 0.0
    ensures v <= 0.0 ==> r == 0.0
    ensures v >= 0.0 ==> r == Round2(v)
  {
    Round2Teken(v);
    Max(0.0, Round2(v))
  }

  /** Comp(v) is within half a cent of max(0, v): v rounded when v is not
      negative, and exactly 0 otherwise. */
  lemma CompBinnen(v: real)
    ensures -0.005 < Comp(v) - Max(0.0, v) <= 0.005
  {
    if v >= 0.0 {
      assert Comp(v) == Round2(v);
    } else {
      assert Comp(v) == 0.0;
    }
  }

  /** A component without rounding: slope times the distance of the
      reference wage below the limit, floored at 0. */
  function ComponentExact(coef: real, grens: real, s: real): real {
    Max(0.0, coef * (grens - s))
  }

  /** One wage component of R: its slope times the distance of the
      reference wage s below the component's limit, through Comp. */
  function Component(coef: real, grens: real, s: real): (r: real)
    ensures r >= 0.0
    ensures coef >= 0.0 && s >= grens ==> r == 0.0
  {
    Comp(coef * (grens - s))
  }

  /** A component is within half a cent of its slope times the distance
      below its limit, floored at 0. */
  lemma ComponentBinnen(coef: real, grens: real, s: real)
    ensures -0.005 < Component(coef, grens, s) - ComponentExact(coef, grens, s) <= 0.005
  {
    CompBinnen(coef * (grens - s));
  }

  /** A component never grows when the reference wage rises. */
  lemma ComponentMonotoon(coef: real, grens: real, s: real, t: real)
    requires coef >= 0.0 && s <= t
    ensures Component(coef, grens, t) <= Component(coef, grens, s)
  {
    MulMonotoon(coef, grens - t, grens - s);
    Round2Monotoon(coef * (grens - t), coef * (grens - s));
  }

  /** The quarterly reference wage: three monthly wages scaled by the work
      fraction. Full time it is three monthly wages; part time, for a
      non-negative wage, it lies between 0 and three monthly wages. */
  function Referteloon(maandloon: real, prestatiebreuk: real): (s: real)
    ensures prestatiebreuk == 1.0 ==> s == 3.0 * maandloon
    ensures maandloon >= 0.0 && 0.0 <= prestatiebreuk <= 1.0 ==> 0.0 <= s <= 3.0 * maandloon
  {
    MulMonotoon(Max(0.0, maandloon * 3.0), Max(0.0, prestatiebreuk), Max(1.0, prestatiebreuk));
    MulMonotoon(Max(0.0, maandloon * 3.0), 0.0, Max(0.0, prestatiebreuk));
    maandloon * 3.0 * prestatiebreuk
  }

  /** Part time, the reference wage is the full-time reference wage scaled
      by the work fraction. */
  lemma ReferteloonDeeltijd(m: real, pb: real)
    ensures Referteloon(m, pb) == pb * Referteloon(m, 1.0)
  {
  }

  /** R without any rounding: F plus alpha x (S0 - s) and gamma x (S2 - s),
      each floored at 0. */
  function RExact(c: Categorie, s: real): real {
    c.f + ComponentExact(c.alpha, c.s0, s) + ComponentExact(c.gamma, c.s2, s)
  }

  /**
   * R for quarterly reference wage s: F plus the low-wage and the very-low-
   * wage component, each floored at 0 on its own, the total rounded to
   * cents. With a non-negative F no component can pull R below 0.
   */
  function RVoorReferteloon(c: Categorie, s: real): (r: real)
    ensures c.f >= 0.0 ==> r >= 0.0
  {
    var totaal := c.f + Component(c.alpha, c.s0, s) + Component(c.gamma, c.s2, s);
    Round2Teken(totaal);
    Round2(totaal)
  }

  /** Three roundings to cents keep R within 1.5 cents of the exact value
      F + max(0, alpha x (S0 - s)) + max(0, gamma x (S2 - s)). */
  lemma RVoorReferteloonBinnen(c: Categorie, s: real)
    ensures -0.015 < RVoorReferteloon(c, s) - RExact(c, s) <= 0.015
  {
    RAfwijking(c, s);
  }

  /** The two rounded components together are within a cent of their exact
      values, so F plus both is within a cent of the exact R. */
  lemma RAfwijking(c: Categorie, s: real)
    ensures -0.010 < c.f + Component(c.alpha, c.s0, s) + Component(c.gamma, c.s2, s) - RExact(c, s) <= 0.010
  {
    ComponentBinnen(c.alpha, c.s0, s);
    ComponentBinnen(c.gamma, c.s2, s);
    SomAfwijking(c.f, Component(c.alpha, c.s0, s), ComponentExact(c.alpha, c.s0, s),
      Component(c.gamma, c.s2, s), ComponentExact(c.gamma, c.s2, s));
  }

  /** Two terms each within half a cent of their exact values keep a sum
      within a cent of the exact sum. */
  lemma SomAfwijking(f: real, ka: real, ea: real, kg: real, eg: real)
    requires -0.005 < ka - ea <= 0.005 && -0.005 < kg - eg <= 0.005
    ensures -0.010 < (f + ka + kg) - (f + ea + eg) <= 0.010
  {
  }

  /** Once the wage reaches both limits, neither component contributes and
      R is F rounded to cents. */
  lemma RBovenGrenzen(c: Categorie, s: real)
    requires c.alpha >= 0.0 && c.gamma >= 0.0
    requires s >= c.s0 && s >= c.s2
    ensures RVoorReferteloon(c, s) == Round2(c.f)
  {
  }

  /**
   * bereken_R for category 1 (the only category the table defines). R is
   * never negative, and is 0 whenever the reference wage reaches
   * S0 = 11233.89 (which lies above S2).
   */
  function BerekenR(categorie: int, maandloon: real, prestatiebreuk: real): (r: real)
    requires categorie == 1
    ensures r >= 0.0
    ensures Referteloon(maandloon, prestatiebreuk) >= CATEGORIE_1.s0 ==> r == 0.0
  {
    var s := Referteloon(maandloon, prestatiebreuk);
    assert s >= CATEGORIE_1.s0 ==> RVoorReferteloon(CATEGORIE_1, s) == 0.0 by {
      if s >= CATEGORIE_1.s0 {
        RBovenGrenzen(CATEGORIE_1, s);
        Round2Centen(0);
      }
    }
    RVoorReferteloon(CATEGORIE_1, s)
  }

  /** For category 1, R is within 1.5 cents of the exact R at the reference
      wage. */
  lemma BerekenRBinnen(maandloon: real, prestatiebreuk: real)
    ensures -0.015 < BerekenR(1, maandloon, prestatiebreuk)
                     - RExact(CATEGORIE_1, Referteloon(maandloon, prestatiebreuk)) <= 0.015
  {
    RVoorReferteloonBinnen(CATEGORIE_1, Referteloon(maandloon, prestatiebreuk));
  }

  /** For a category with non-negative slopes, a higher reference wage never
      gives a larger R. */
  lemma RMonotoon(c: Categorie, s: real, t: real)
    requires c.alpha >= 0.0 && c.gamma >= 0.0
    requires s <= t
    ensures RVoorReferteloon(c, t) <= RVoorReferteloon(c, s)
  {
    ComponentMonotoon(c.alpha, c.s0, s, t);
    ComponentMonotoon(c.gamma, c.s2, s, t);
    Round2Monotoon(
      c.f + Component(c.alpha, c.s0, t) + Component(c.gamma, c.s2, t),
      c.f + Component(c.alpha, c.s0, s) + Component(c.gamma, c.s2, s));
  }

  /**
   * The part-time factor beta for work fraction mu: 1.18 below 0.55,
   * rising by 0.28 per unit of mu above 0.55 up to 0.9, and 1 / mu from 0.9
   * on, where mu x beta is exactly 1. Beta is positive for every positive mu.
   */
  function Beta(mu: real): (r: real)
    ensures mu > 0.0 ==> r > 0.0
    ensures mu < 0.55 ==> r == 1.18
    ensures 0.55 <= mu < 0.9 ==> r == 1.18 + (mu - 0.55) * 0.28
    ensures 0.55 <= mu < 0.9 ==> 1.18 <= r < 1.18 + 0.35 * 0.28
    ensures mu >= 0.9 ==> mu * r == 1.0
  {
    if mu < 0.55 then 1.18
    else if mu < 0.9 then 1.18 + (mu - 0.55) * 0.28
    else 1.0 / mu
  }

  /** The monthly reduction before rounding: R x mu x beta / 3. */
  function Geschaald(rr: real, mu: real): real {
    rr * mu * Beta(mu) / 3.0
  }

  /**
   * The monthly reduction for quarterly amount R and work fraction mu:
   * R x mu x beta / 3, rounded to cents. From mu = 0.9 on it is a third of
   * R; it is never negative for non-negative R and mu.
   */
  function Maandbedrag(rr: real, mu: real): (r: real)
    ensures mu >= 0.9 ==> r == Round2(rr / 3.0)
    ensures rr >= 0.0 && mu >= 0.0 ==> r >= 0.0
  {
    var ps := Geschaald(rr, mu);
    VerminderingFactor(rr, mu);
    assert mu >= 0.9 ==> ps == rr / 3.0;
    Round2(ps)
  }

  /** For every R and mu the monthly amount is within half a cent of
      R x mu x beta / 3. */
  lemma MaandbedragBinnen(rr: real, mu: real)
    ensures BinnenHalveCent(Geschaald(rr, mu), Maandbedrag(rr, mu))
  {
    assert Maandbedrag(rr, mu) == Round2(Geschaald(rr, mu));
  }

  /** The scaled amount R x mu x beta / 3: not negative for non-negative R
      and mu, and a third of R from mu = 0.9 on. */
  lemma VerminderingFactor(rr: real, mu: real)
    ensures rr >= 0.0 && mu >= 0.0 ==> Round2(Geschaald(rr, mu)) >= 0.0
    ensures mu >= 0.9 ==> Geschaald(rr, mu) == rr / 3.0
  {
    var beta := Beta(mu);
    assert rr * mu * beta == rr * (mu * beta);
    if rr >= 0.0 && mu >= 0.0 {
      assert mu * beta >= 0.0;
      assert rr * (mu * beta) >= 0.0;
      Round2Teken(rr * mu * beta / 3.0);
    }
    if mu >= 0.9 {
      assert mu * beta == 1.0;
      assert rr * (mu * beta) == rr;
    }
  }

  /**
   * bereken_structurele_vermindering_maand for category 1: R for the wage
   * and work fraction, scaled to a monthly amount. From a work fraction of
   * 0.9 on it is a third of R; it is never negative for a non-negative work
   * fraction.
   */
  function BerekenStructureleVerminderingMaand(categorie: int, maandloon: real, prestatiebreuk: real): (r: real)
    requires categorie == 1
    ensures prestatiebreuk >= 0.9 ==> r == Round2(BerekenR(categorie, maandloon, prestatiebreuk) / 3.0)
    ensures prestatiebreuk >= 0.0 ==> r >= 0.0
  {
    Maandbedrag(BerekenR(categorie, maandloon, prestatiebreuk), prestatiebreuk)
  }

  /** For category 1 and every wage and work fraction, the monthly reduction
      is within half a cent of R x mu x beta(mu) / 3. */
  lemma VerminderingMaandBinnen(maandloon: real, prestatiebreuk: real)
    ensures BinnenHalveCent(Geschaald(BerekenR(1, maandloon, prestatiebreuk), prestatiebreuk),
                            BerekenStructureleVerminderingMaand(1, maandloon, prestatiebreuk))
  {
    MaandbedragBinnen(BerekenR(1, maandloon, prestatiebreuk), prestatiebreuk);
  }

  /** Category 1, monthly wage 2000, full time: R = 732.74 + 504.00 and the
      monthly reduction is 412.25. */
  lemma Vermindering2000()
    ensures BerekenR(1, 2000.0, 1.0) == 1236.74
    ensures BerekenStructureleVerminderingMaand(1, 2000.0, 1.0) == 412.25
  {
    assert Component(CATEGORIE_1.alpha, CATEGORIE_1.s0, 6000.0) == 732.74;
    assert Component(CATEGORIE_1.gamma, CATEGORIE_1.s2, 6000.0) == 504.00;
  }
}

=== FILE: werkbonus.dfy ===
/**
 * The 2025 "werkbonus" for salaried staff: a social bonus in two parts
 * (A and B), each a flat amount for low reference wages that is phased out
 * linearly above a threshold, and a fiscal bonus that is a fixed share of
 * each social part.
 */
module Werkbonus {
  import opened Afronding

  /** Parameters of one part: full amount up to `sMax`, linear phase-out with
      slope `afbouwCoef` up to `sAfbouwMax`, nothing above. */
  datatype Luik = Luik(sMax: real, bedrag: real, sAfbouwMax: real, afbouwCoef: real)

  const LUIK_A: Luik := Luik(2669.96, 115.91, 3144.45, 0.2443)
  const LUIK_B: Luik := Luik(2090.78, 156.30, 2669.96, 0.2699)
  const FISCALE_PCT_LUIK_A: real := 0.3314
  const FISCALE_PCT_LUIK_B: real := 0.5254

  /** The two parts of a (social or fiscal) werkbonus, monthly amounts. */
  datatype Luiken = Luiken(a: real, b: real)

  /** A part whose amount and slope are not negative. */
  predicate GeldigLuik(p: Luik) {
    p.bedrag >= 0.0 && p.afbouwCoef >= 0.0
  }

  /**
   * _afbouw: the three-zone phase-out of one part. Up to `sMax` the full
   * amount; above `sAfbouwMax` (and above `sMax`) nothing; in between the
   * amount less the slope times the excess over `sMax`, never below 0.
   * For a valid part the result lies in [0, amount].
   */
  function Afbouw(s: real, p: Luik): (r: real)
    ensures s <= p.sMax ==> r == p.bedrag
    ensures p.sMax < s && p.sAfbouwMax < s ==> r == 0.0
    ensures p.sMax < s <= p.sAfbouwMax ==> r == Max(0.0, p.bedrag - p.afbouwCoef * (s - p.sMax))
    ensures GeldigLuik(p) ==> 0.0 <= r <= p.bedrag
  {
    if s <= p.sMax then p.bedrag
    else if s <= p.sAfbouwMax then
      var v := p.bedrag - p.afbouwCoef * (s - p.sMax);
      Max(0.0, v)
    else 0.0
  }

  /** A higher reference wage never gives a larger part. */
  lemma AfbouwMonotoon(p: Luik, s: real, t: real)
    requires GeldigLuik(p) && s <= t
    ensures Afbouw(t, p) <= Afbouw(s, p)
  {
    if p.sMax < s && t <= p.sAfbouwMax {
      MulMonotoon(p.afbouwCoef, s - p.sMax, t - p.sMax);
    }
  }

  /**
   * When the linear phase-out reaches 0 before `sAfbouwMax`, a part is 0
   * exactly from the wage sMax + amount / slope on: both directions hold.
   */
  lemma AfbouwNulpunt(p: Luik, s: real)
    requires p.bedrag > 0.0 && p.afbouwCoef > 0.0
    requires p.sMax + p.bedrag / p.afbouwCoef <= p.sAfbouwMax
    ensures Afbouw(s, p) == 0.0 <==> s >= p.sMax + p.bedrag / p.afbouwCoef
  {
    var nul := p.sMax + p.bedrag / p.afbouwCoef;
    assert p.afbouwCoef * (nul - p.sMax) == p.bedrag;
    if p.sMax < s <= p.sAfbouwMax {
      assert p.afbouwCoef * (s - p.sMax) - p.bedrag == p.afbouwCoef * (s - nul);
      if s >= nul {
        assert p.afbouwCoef * (s - nul) >= 0.0;
      } else {
        assert p.afbouwCoef * (s - nul) < 0.0;
        assert p.bedrag - p.afbouwCoef * (s - p.sMax) > 0.0;
      }
    }
  }

  /** Both 2025 parts reach 0 before their phase-out ceiling, so each is 0
      at and above `sAfbouwMax`, and only there or just below it. */
  lemma LuikenNulVanafAfbouwMax(s: real)
    ensures s >= LUIK_A.sAfbouwMax ==> Afbouw(s, LUIK_A) == 0.0
    ensures s >= LUIK_B.sAfbouwMax ==> Afbouw(s, LUIK_B) == 0.0
    ensures Afbouw(s, LUIK_A) == 0.0 <==> s >= LUIK_A.sMax + LUIK_A.bedrag / LUIK_A.afbouwCoef
    ensures Afbouw(s, LUIK_B) == 0.0 <==> s >= LUIK_B.sMax + LUIK_B.bedrag / LUIK_B.afbouwCoef
  {
    AfbouwNulpunt(LUIK_A, s);
    AfbouwNulpunt(LUIK_B, s);
  }

  /**
   * bereken_sociale_werkbonus: both parts from the same reference monthly
   * wage, each with its own parameters and rounded to cents, so each part is
   * within half a cent of its phase-out value. Each part lies
   * between 0 and its full amount; a wage up to part B's `sMax` gets both
   * full amounts; above each part's phase-out ceiling that part is 0.
   */
  function SocialeWerkbonus(referteMaandloon: real): (r: Luiken)
    ensures BinnenHalveCent(Afbouw(referteMaandloon, LUIK_A), r.a)
    ensures BinnenHalveCent(Afbouw(referteMaandloon, LUIK_B), r.b)
    ensures 0.0 <= r.a <= LUIK_A.bedrag && 0.0 <= r.b <= LUIK_B.bedrag
    ensures referteMaandloon <= LUIK_A.sMax ==> r.a == LUIK_A.bedrag
    ensures referteMaandloon <= LUIK_B.sMax ==> r.b == LUIK_B.bedrag
    ensures referteMaandloon >= LUIK_A.sAfbouwMax ==> r.a == 0.0
    ensures referteMaandloon >= LUIK_B.sAfbouwMax ==> r.b == 0.0
  {
    var a := Afbouw(referteMaandloon, LUIK_A);
    var b := Afbouw(referteMaandloon, LUIK_B);
    Round2Grenzen(a, 11591);
    Round2Grenzen(b, 15630);
    LuikenNulVanafAfbouwMax(referteMaandloon);
    Luiken(Round2(a), Round2(b))
  }

  /** Rounding an amount in [0, k cents] stays in [0, k cents]. */
  lemma Round2Grenzen(x: real, k: int)
    requires 0.0 <= x <= k as real / 100.0
    ensures 0.0 <= Round2(x) <= k as real / 100.0
    ensures x == k as real / 100.0 ==> Round2(x) == x
    ensures x == 0.0 ==> Round2(x) == 0.0
  {
    Round2Teken(x);
    Round2Monotoon(x, k as real / 100.0);
    Round2Centen(k);
    Round2Centen(0);
  }

  /** A social part never decreases when the wage drops. */
  lemma SocialeWerkbonusMonotoon(s: real, t: real)
    requires s <= t
    ensures SocialeWerkbonus(t).a <= SocialeWerkbonus(s).a
    ensures SocialeWerkbonus(t).b <= SocialeWerkbonus(s).b
  {
    AfbouwMonotoon(LUIK_A, s, t);
    AfbouwMonotoon(LUIK_B, s, t);
    Round2Monotoon(Afbouw(t, LUIK_A), Afbouw(s, LUIK_A));
    Round2Monotoon(Afbouw(t, LUIK_B), Afbouw(s, LUIK_B));
  }

  /**
   * bereken_fiscale_werkbonus: 33.14% of part A and 52.54% of part B, each
   * rounded to cents: each lies within half a cent of its share. For a
   * non-negative part the fiscal part is at most the part rounded to cents.
   */
  function FiscaleWerkbonus(luikA: real, luikB: real): (r: Luiken)
    ensures -0.005 < r.a - FISCALE_PCT_LUIK_A * luikA <= 0.005
    ensures -0.005 < r.b - FISCALE_PCT_LUIK_B * luikB <= 0.005
    ensures luikA >= 0.0 ==> 0.0 <= r.a <= Round2(luikA)
    ensures luikB >= 0.0 ==> 0.0 <= r.b <= Round2(luikB)
  {
    var a := luikA * FISCALE_PCT_LUIK_A;
    var b := luikB * FISCALE_PCT_LUIK_B;
    Round2Aandeel(luikA, FISCALE_PCT_LUIK_A);
    Round2Aandeel(luikB, FISCALE_PCT_LUIK_B);
    Luiken(Round2(a), Round2(b))
  }

  /** A share of at most 100% of a non-negative amount, rounded, is between
      0 and the amount rounded. */
  lemma Round2Aandeel(x: real, pct: real)
    requires 0.0 <= pct <= 1.0
    ensures x >= 0.0 ==> 0.0 <= Round2(x * pct) <= Round2(x)
  {
    if x >= 0.0 {
      assert 0.0 <= x * pct <= x * 1.0;
      Round2Teken(x * pct);
      Round2Monotoon(x * pct, x);
    }
  }

  /** Applied to the social bonus, each fiscal part is between 0 and its
      social part. */
  lemma FiscaalHoogstensSociaal(referteMaandloon: real)
    ensures var sociaal := SocialeWerkbonus(referteMaandloon);
            var fiscaal := FiscaleWerkbonus(sociaal.a, sociaal.b);
            0.0 <= fiscaal.a <= sociaal.a && 0.0 <= fiscaal.b <= sociaal.b
  {
    var sociaal := SocialeWerkbonus(referteMaandloon);
    Round2Idempotent(Afbouw(referteMaandloon, LUIK_A));
    Round2Idempotent(Afbouw(referteMaandloon, LUIK_B));
    assert Round2(sociaal.a) == sociaal.a;
    assert Round2(sociaal.b) == sociaal.b;
  }

  /** The fiscal bonus at its largest: 38.41 for part A and 82.12 for part
      B, so the total fiscal bonus never exceeds 120.53. */
  lemma FiscaleWerkbonusHoogstens(referteMaandloon: real)
    ensures var sociaal := SocialeWerkbonus(referteMaandloon);
            var fiscaal := FiscaleWerkbonus(sociaal.a, sociaal.b);
            0.0 <= fiscaal.a <= 38.41 && 0.0 <= fiscaal.b <= 82.12
  {
    var sociaal := SocialeWerkbonus(referteMaandloon);
    assert sociaal.a * FISCALE_PCT_LUIK_A <= LUIK_A.bedrag * FISCALE_PCT_LUIK_A;
    assert sociaal.b * FISCALE_PCT_LUIK_B <= LUIK_B.bedrag * FISCALE_PCT_LUIK_B;
    Round2Monotoon(sociaal.a * FISCALE_PCT_LUIK_A, LUIK_A.bedrag * FISCALE_PCT_LUIK_A);
    Round2Monotoon(sociaal.b * FISCALE_PCT_LUIK_B, LUIK_B.bedrag * FISCALE_PCT_LUIK_B);
    assert Round2(LUIK_A.bedrag * FISCALE_PCT_LUIK_A) == 38.41;
    assert Round2(LUIK_B.bedrag * FISCALE_PCT_LUIK_B) == 82.12;
  }

  /** A reference wage of 2000 is below both thresholds and yields the two
      full amounts, 115.91 and 156.30. */
  lemma Werkbonus2000()
    ensures SocialeWerkbonus(2000.0) == Luiken(115.91, 156.30)
  {
  }
}

=== FILE: werknemer.dfy ===
/**
 * The compensation profile of a salaried employee ("bediende"): every input
 * the net-pay and employer-cost calculators read. The profile stores its
 * arguments unchanged and validates nothing; validity is a separate
 * predicate.
 */
module Werknemer {
  import opened Bszb

  /**
   * Monthly gross wage; work fraction (1.0 full time, 0.8 four fifths, ...);
   * yearly employer and employee shares of meal vouchers; yearly eco
   * vouchers; group-insurance and work-accident insurance percentages
   * (fractions of the gross wage); monthly tax-free expense allowance; and
   * the BBSZ regime.
   */
  datatype Bediende = Bediende(
    brutoMaandloon: real,
    prestatiebreuk: real,
    mgWgJaar: real,
    mgWnJaar: real,
    ecJaar: real,
    gvWgPct: real,
    aoPct: real,
    maandelijkseKostenvergoeding: real,
    regime: Regime)
  {
    /** The yearly gross wage, always twelve monthly wages: it has the sign
        of the monthly wage, and for a positive wage it exceeds it. */
    function BrutoJaarloon(): (r: real)
      ensures r == 12.0 * brutoMaandloon
      ensures brutoMaandloon >= 0.0 <==> r >= 0.0
      ensures brutoMaandloon > 0.0 ==> r > brutoMaandloon
    {
      brutoMaandloon * 12.0
    }
  }

  /**
   * A profile built from the monthly wage alone, with the constructor's
   * defaults: full time, the individual BBSZ regime, and 0 for every voucher,
   * percentage and allowance.
   */
  function NieuweBediende(brutoMaandloon: real): (b: Bediende)
    ensures b.brutoMaandloon == brutoMaandloon
    ensures b.BrutoJaarloon() == 12.0 * brutoMaandloon
    ensures b.prestatiebreuk == 1.0 && b.regime == Individueel
    ensures b.mgWgJaar == 0.0 && b.mgWnJaar == 0.0 && b.ecJaar == 0.0
    ensures b.gvWgPct == 0.0 && b.aoPct == 0.0 && b.maandelijkseKostenvergoeding == 0.0
  {
    Bediende(brutoMaandloon, 1.0, 0.0, 0.0, 0.0, 0.0, 0.0, 0.0, Individueel)
  }

  /**
   * A valid profile: no negative amount, a work fraction in (0, 1] and
   * insurance percentages in [0, 1). The calculators do not check this;
   * properties that depend on it say so.
   */
  predicate Geldig(b: Bediende) {
    && b.brutoMaandloon >= 0.0
    && 0.0 < b.prestatiebreuk <= 1.0
    && b.mgWgJaar >= 0.0 && b.mgWnJaar >= 0.0 && b.ecJaar >= 0.0
    && 0.0 <= b.gvWgPct < 1.0 && 0.0 <= b.aoPct < 1.0
    && b.maandelijkseKostenvergoeding >= 0.0
  }

  /** The defaults give a valid profile exactly when the wage is not
      negative. */
  lemma NieuweBediendeGeldig(brutoMaandloon: real)
    ensures Geldig(NieuweBediende(brutoMaandloon)) <==> brutoMaandloon >= 0.0
  {
  }
}
